=== FILE: README.md ===
# Costa Rica division lookup and listing form: a verified model

This project models the logic at the core of a Costa Rica property-listing
web app. It has three parts:

- **Administrative-division lookup** (province → canton → district). It comes
  in three variants.
  - `Divisions` is the cached resolver. It loads three GeoJSON datasets whose
    features name their own division and its parents. It builds a
    cantons-by-province index and a districts-by-`provincia-canton` index in
    one loop each. It serves sorted option lists from those indices. It
    resolves a coordinate with a priority search: district first, then
    canton, then province.
  - `GeoJson` is the geoBoundaries variant. It searches each level on its
    own. It chooses a parent by id or name substring, and it finds the
    children of a parent by testing whether each child's centroid lies in it.
  - `Locations` is the guarded lookup over a static nested code table.
- **The listing wizard** (`RentModal`). It has five steps with bounded
  next/back buttons and labels that depend on the step. It normalises
  province names and checks positions against a Costa Rica bounding box. A
  province effect moves the map unless geolocation is running, and a
  WhatsApp number can mirror the phone number.
- **The category filter** (`Navbar`). Clicking a category toggles it in the
  URL query and leaves every other parameter as it was.

The geometry library's point-in-polygon test and centroid are parameters
(`Common.Inside`, `Common.Centroid`). Every result therefore holds for any
answers the library gives. Loaded datasets, fetch outcomes, browser positions
and reverse-geocoded state names are inputs. `Strings` and `Seqs` model the
JavaScript string and array operations the code relies on. `Sorting` models
the copy-and-sort of the option lists.

Behaviours of the code that are easy to get wrong:

- Loading is not shared between concurrent callers. Every hook instance that
  mounts while the cache is empty fetches on its own. The cache is tested
  only when the effect starts, and a successful load writes it without
  testing it again. So when two loads overlap, the one that finishes last
  overwrites the cache (`Divisions.DivisionsHook.LoadAndStore`).
- A district without a canton name is filed under the key
  `"<provincia>-undefined"`, because `undefined` is interpolated into the key
  string (`Divisions.CantonKey`).
- A district hit reports the district's own `provincia`/`canton` properties.
  It does not look up its parents.
- Malformed coordinates are not rejected. They are searched like any other
  point.
- Option lists are sorted with `localeCompare`. This model uses code-point
  lexicographic order (`Strings.StrLeq`).

## Model

| member | source | states |
|---|---|---|
| `Divisions.IndexBy` | app/hooks/useCostaRicaDivisions.ts:60-76 | the index has one key per key occurring in the dataset, and each bucket is exactly the features with that key, in dataset order |
| `Divisions.IndexPartitions` | app/hooks/useCostaRicaDivisions.ts:60-76 | every occurrence of a feature is in the bucket of its own key and in no other; a bucket is a subsequence of the dataset and holds only features with its key |
| `Divisions.GetProvinces` | app/hooks/useCostaRicaDivisions.ts:99-105 | `[]` before loading; otherwise a permutation of the province features sorted by `provincia`, so that any earlier position's name is at most any later one's |
| `Divisions.GetCantonsByProvince` | app/hooks/useCostaRicaDivisions.ts:107-114 | `[]` without data or for a null/empty name; otherwise a permutation of the province's bucket (`[]` for an unknown name) sorted by canton name (pairwise, for any two positions), a missing name sorting as `''` |
| `Divisions.GetDistrictsByCanton` | app/hooks/useCostaRicaDivisions.ts:116-124 | `[]` without data or when either name is null/empty; otherwise a permutation of the bucket of key `province-canton`, sorted by district name (pairwise, for any two positions) |
| `Divisions.CantonsOfProvince` | app/hooks/useCostaRicaDivisions.ts:107-114 | on a loaded cache, the canton list holds exactly the cantons whose `provincia` is the name, each as often as in the dataset; no such canton gives `[]` |
| `Divisions.DistrictsOfCanton` | app/hooks/useCostaRicaDivisions.ts:116-124 | on a loaded cache, the district list holds exactly the districts whose composite key `provincia-canton` equals `p-c`, each as often as in the dataset |
| `Divisions.CantonKey` | app/hooks/useCostaRicaDivisions.ts:71 | a district is filed under `provincia + "-" + canton`, a missing canton interpolating as `"undefined"` |
| `Divisions.UnnamedCantonDistricts` | app/hooks/useCostaRicaDivisions.ts:69-76 | on a loaded cache, a district without a canton name is listed by `getDistrictsByCanton(provincia, "undefined")` |
| `Divisions.PointOf` | app/hooks/useCostaRicaDivisions.ts:128 | the tested point takes longitude from `lng` and latitude from `lat` |
| `Divisions.Locate` | app/hooks/useCostaRicaDivisions.ts:126-161 | `null` without data; the first containing district's names; else the first containing canton's names with no district; else the first containing province's name with neither; `null` exactly when no feature of any level contains the point |
| `Divisions.FindLocationByCoords` | app/hooks/useCostaRicaDivisions.ts:126-161 | the three early-return scans compute `Locate` |
| `Divisions.DivisionCache.constructor` | app/hooks/useCostaRicaDivisions.ts:31 | the shared cache starts empty |
| `Divisions.DivisionsHook.constructor` | app/hooks/useCostaRicaDivisions.ts:34-36 | a mounted hook starts from the cache, loading exactly when the cache is empty, with no error |
| `Divisions.DivisionsHook.FetchData` | app/hooks/useCostaRicaDivisions.ts:38-97 | a filled cache is left as it is and only the loading flag clears; with an empty cache, a failed fetch or any thrown error leaves the cache empty and records the error, and a successful load writes the three datasets and both indices to the cache and the hook state; loading always ends and the cache always stays indexed |
| `Divisions.DivisionsHook.LoadAndStore` | app/hooks/useCostaRicaDivisions.ts:45-93 | with no second cache test: a failure records `"Failed to fetch GeoJSON data"` or the thrown message and leaves the cache as it was; a success writes this load's datasets and indices to the cache whatever it held, and to the hook state; loading ends |
| `GeoJson.FirstContaining` | app/hooks/useCostaRicaGeoJSON.ts:57-62 | `null` exactly when no feature contains the point; otherwise the first feature in dataset order that contains it |
| `GeoJson.ScanLevel` | app/hooks/useCostaRicaGeoJSON.ts:57-62 | the `for … break` scan yields `FirstContaining` |
| `GeoJson.FindLocationByCoordinates` | app/hooks/useCostaRicaGeoJSON.ts:44-81 | `null` unless all three datasets are loaded; otherwise each level's field is that level's first containing feature at `(lng, lat)`, independently of the other levels |
| `GeoJson.GetProvinces` | app/hooks/useCostaRicaGeoJSON.ts:83-90 | `[]` before loading; otherwise one option per province in order, value `shapeID`, label `shapeName` with its first `"Provincia "` removed |
| `GeoJson.ProvinceLabel` | app/hooks/useCostaRicaGeoJSON.ts:87 | a province named `"Provincia X"` is labelled `"X"` |
| `GeoJson.SelectProvince` | app/hooks/useCostaRicaGeoJSON.ts:96-99 | the first province whose `shapeID` equals the name or whose `shapeName` contains it; none when no province matches |
| `GeoJson.EmptyNameSelectsFirst` | app/hooks/useCostaRicaGeoJSON.ts:98 | because every name contains `""`, an empty name selects the first province |
| `GeoJson.SelectCanton` | app/hooks/useCostaRicaGeoJSON.ts:119-121 | the first canton whose `shapeID` is exactly the id; none when no canton has it |
| `GeoJson.AsOptions` | app/hooks/useCostaRicaGeoJSON.ts:109-113 | one `{value: shapeID, label: shapeName, feature}` option per feature, in order |
| `GeoJson.ChildrenInside` | app/hooks/useCostaRicaGeoJSON.ts:104-113 | the options are exactly the children whose centroid lies in the parent, each as many times as it occurs among the children (none for the others), in dataset order (a subsequence of the children) |
| `GeoJson.GetCantonsByProvince` | app/hooks/useCostaRicaGeoJSON.ts:92-114 | `[]` when either dataset is missing or no province matches; otherwise the cantons whose centroid lies in the selected province |
| `GeoJson.GetDistrictsByCanton` | app/hooks/useCostaRicaGeoJSON.ts:116-135 | `[]` when either dataset is missing or no canton has the id; otherwise the districts whose centroid lies in that canton |
| `Locations.KeyList` | app/hooks/useCostaRicaLocations.ts:14 | every key of the table exactly once |
| `Locations.NamedEntries` | app/hooks/useCostaRicaLocations.ts:14-17 | one `{code, name}` entry per key with that key's name, codes distinct |
| `Locations.Provinces` | app/hooks/useCostaRicaLocations.ts:13-18 | one entry per province code, named by its `nombre` |
| `Locations.GetCantons` | app/hooks/useCostaRicaLocations.ts:19-26 | `[]` for an empty or unknown province code; otherwise one entry per canton code, named by its `nombre` |
| `Locations.GetDistricts` | app/hooks/useCostaRicaLocations.ts:27-34 | `[]` unless both codes are non-empty and the canton exists under the province; otherwise one entry per district code with its name |
| `Locations.GetCanton` | app/hooks/useCostaRicaLocations.ts:36-39 | `null` exactly when the district guard fails; otherwise the stored canton |
| `Locations.GetProvince` | app/hooks/useCostaRicaLocations.ts:41-44 | `null` exactly for an empty or unknown code; otherwise the stored province |
| `Locations.CantonAgreesWithDistricts` | app/hooks/useCostaRicaLocations.ts:28-38 | a `null` canton means no districts; otherwise the district list covers the stored canton's districts |
| `Locations.ProvinceAgreesWithCantons` | app/hooks/useCostaRicaLocations.ts:20-43 | a `null` province means no cantons; otherwise one canton entry per stored canton |
| `RentModal.GetProvinceKey` | app/components/modals/RentModal.tsx:47-53 | the first `"Provincia de "` is removed and the rest trimmed; the result is returned only if it is a province key |
| `RentModal.ProvinceKeysPlain` | app/components/modals/RentModal.tsx:37-45 | every province key is non-empty, neither starts nor ends with whitespace, and is shorter than `"Provincia de "` |
| `RentModal.ProvinceKeyOfKey` | app/components/modals/RentModal.tsx:47-53 | every key normalises to itself, both bare and as `"Provincia de <key>"` |
| `RentModal.ProvinceKeyIdempotent` | app/components/modals/RentModal.tsx:47-53 | normalising a normalised name gives it back |
| `RentModal.GeocodedProvince` | app/components/modals/RentModal.tsx:182-187 | a state name with a key selects that key; otherwise the province stays, so it remains a key |
| `RentModal.AfterGeocoding` | app/components/modals/RentModal.tsx:182-187 | the province becomes `GeocodedProvince` and stays a key; only province, location and zoom can change; when the flag is down and the province changed, the province effect moves the map to the new centre at zoom 14 |
| `RentModal.FlagKeepsPosition` | app/components/modals/RentModal.tsx:138-142 | while the flag is up, geocoding never moves the map: an accepted position stays on it at zoom 18 |
| `RentModal.CornersAndCentresInBounds` | app/components/modals/RentModal.tsx:165-168 | the bounds check `InCostaRica` is inclusive: both corners of the box pass, and so does every province centre in the coordinate table |
| `RentModal.ActionLabel` | app/components/modals/RentModal.tsx:229-232 | `"Crear"` exactly on `DESCRIPTION_PRICE`, `"Siguiente"` otherwise |
| `RentModal.SecondaryActionLabel` | app/components/modals/RentModal.tsx:234-237 | absent exactly on `CATEGORY`, `"Atrás"` otherwise |
| `RentModal.RentForm.constructor` | app/components/modals/RentModal.tsx:65-98 | the defaults: first step, zoom 14, flag down, province `"San José"`, empty contacts; after the mount effect the map is on San José |
| `RentModal.RentForm.ProvinceEffect` | app/components/modals/RentModal.tsx:138-148 | while the flag is up nothing changes; otherwise a known province moves the location to its coordinates at zoom 14 |
| `RentModal.RentForm.SetProvince` | app/components/modals/RentModal.tsx:185 | the province becomes the key; the map moves to it only when it changed and the flag is down |
| `RentModal.RentForm.SelectProvince` | app/components/modals/RentModal.tsx:256-258 | the select offers only keys, so the province stays a key; the whole new state is given: on a change with the flag down the map moves to the province at zoom 14, otherwise only the province changes |
| `RentModal.RentForm.MoveMarker` | app/components/modals/RentModal.tsx:207-209 | the location becomes the marker position, nothing else changes |
| `RentModal.RentForm.StartGeolocation` | app/components/modals/RentModal.tsx:150-158 | without browser support nothing changes; otherwise loading starts and the flag goes up |
| `RentModal.RentForm.PositionReceived` | app/components/modals/RentModal.tsx:161-196 | accepted exactly inside the inclusive bounds `8.04 ≤ lat ≤ 11.23`, `-87.09 ≤ lng ≤ -82.56`; a rejected position leaves location, zoom and province and lowers the flag; an accepted one is handled by `AcceptPosition` |
| `RentModal.RentForm.AcceptPosition` | app/components/modals/RentModal.tsx:176-191 | the new state is `AfterGeocoding` of the form moved to the position at zoom 18, with loading ended |
| `RentModal.RentForm.ApplyGeocodedState` | app/components/modals/RentModal.tsx:182-187 | the new state is `AfterGeocoding` of the old one |
| `RentModal.RentForm.PositionFailed` | app/components/modals/RentModal.tsx:197-202 | loading stops and the flag goes down |
| `RentModal.RentForm.GeolocationSettled` | app/components/modals/RentModal.tsx:193-195 | the flag goes down |
| `RentModal.RentForm.WhatsappEffect` | app/components/modals/RentModal.tsx:131-135 | with "same number" ticked the WhatsApp number becomes the phone |
| `RentModal.RentForm.SetContactPhone` | app/components/modals/RentModal.tsx:315 | the phone changes, and the WhatsApp number follows it when "same number" is ticked |
| `RentModal.RentForm.SetWhatsappSame` | app/components/modals/RentModal.tsx:317 | ticking copies the phone into the WhatsApp number; clearing keeps it |
| `RentModal.RentForm.SetContactWhatsapp` | app/components/modals/RentModal.tsx:320-322 | the WhatsApp field, shown only when "same number" is clear, sets that number |
| `RentModal.RentForm.ResetForm` | app/components/modals/RentModal.tsx:221 | the form values return to their defaults; the map moves to San José only when the province changed and the flag is down |
| `RentModal.RentForm.Back` | app/components/modals/RentModal.tsx:335 | offered exactly when the secondary label exists; it goes one step back and stays in range |
| `RentModal.RentForm.Submit` | app/components/modals/RentModal.tsx:214-227 | posts exactly when the label is `"Crear"`; otherwise it only advances one step; a successful post resets the form and returns to `CATEGORY`, the map moving to San José at zoom 14 exactly when the province changed and the flag was down; a failed post only ends loading; the step stays within `CATEGORY..DESCRIPTION_PRICE` |
| `Navbar.SelectCategory` | app/components/navbar/Navbar.tsx:43-54 | the target is `/`; an already selected label removes `category`, any other label sets it; every other key and value is carried over |
| `Navbar.SelectedMeansCategory` | app/components/navbar/Navbar.tsx:41 | the selected flag `IsSelected` holds exactly when the parsed query maps `category` to the box's label |
| `Navbar.SelectTwice` | app/components/navbar/Navbar.tsx:48-51 | clicking the same unselected label twice gives the query without `category` and with every other parameter unchanged |
| `Navbar.SelectionAfterClick` | app/components/navbar/Navbar.tsx:79 | after a click, the clicked box is selected exactly when it was not before, and no other box is selected |
| `Navbar.AtMostOneSelected` | app/components/navbar/Navbar.tsx:22-30 | the labels are distinct, so at most one box is selected |
| `Strings.RemoveFirst` | app/components/modals/RentModal.tsx:48 | `replace` with a string pattern removes only the first occurrence and leaves a string without one unchanged |
| `Strings.Trim` | app/components/modals/RentModal.tsx:48 | the result is a slice with only whitespace around it, and it neither starts nor ends with whitespace |
| `Strings.IndexOf` | app/hooks/useCostaRicaGeoJSON.ts:98 | the first index where the pattern occurs; none when it never does |
| `Sorting.SortBy` | app/hooks/useCostaRicaDivisions.ts:111-113 | the copy is sorted by the name and is a permutation of the input |
| `Sorting.SortByOrdered` | app/hooks/useCostaRicaDivisions.ts:111-113 | in the sorted copy, any earlier element's name is at most any later element's |
| `Strings.StrLeqTotal` | app/hooks/useCostaRicaDivisions.ts:112 | the comparison used for sorting is total |
| `Strings.StrLeqTrans` | app/hooks/useCostaRicaDivisions.ts:112 | the comparison used for sorting is transitive |

## Left out

- Fetching and parsing the GeoJSON files are not modelled. The loaded datasets are inputs, and `Divisions.FetchOutcome` says whether a response was not `ok`, some other error was thrown (a rejected `fetch`, malformed JSON, a dataset without features), or the load succeeded. `app/hooks/useGeoJsonData.ts` only fetches and is not part of this model.
- The geometry library's point-in-polygon test and centroid are not verified. Every operation takes them as parameters.
- `localeCompare` collation is not modelled. Sorting uses code-point lexicographic order instead. The sorts are stable, like JavaScript's, but no contract states it.
- React's lifecycle is modelled only by calling each effect right after a change to its dependencies. Render timing, the 100 ms delay before the flag goes down, and two geolocation requests in flight at once are not modelled.
- The steps between the awaits of one load are not modelled one by one. A load is the single step `LoadAndStore`. Overlapping loads can only be composed from the cache test in `FetchData` and whole `LoadAndStore` calls.
- The `Object.keys` order is not modelled. Keys inherited from the object prototype (such as `"toString"`) are not modelled either.
- `query-string` parsing and serialisation are not modelled. The query is a map from strings to strings, so repeated keys that parse to arrays are out, and so are parameters without a value (`?flag` parses to `null`, which `skipNull` then drops on navigation). `router.push` is represented by the `Navbar.Navigation` value it would receive.
- Browser geolocation and the Nominatim reverse-geocoding request are inputs. A missing state, or a failed request, is `None`.
- The following parts of the listing form are not modelled: required-field validation before submit, toasts, `router.refresh`, closing the modal, the actual POST (its success is an input), image upload, and the form fields that do not affect location, step or contacts.
- The Leaflet map bindings, the API routes, the middleware, the configuration and the localised copies under `app/[locale]/` are not part of this model.

=== FILE: common.dfy ===
/**
  Values shared by every part of the model: optional values (JavaScript's
  `null`/`undefined`), GeoJSON positions and geometries, and the two
  operations the hooks borrow from the turf geometry library.
 */
module Common {

  /** `null` / `undefined` versus a present value. */
  datatype Option<+T> = None | Some(value: T)

  /** A GeoJSON position: longitude first, then latitude. */
  datatype Point = Point(lng: real, lat: real)

  /** A GeoJSON boundary geometry, kept as its coordinate rings. */
  datatype Geometry =
    | Polygon(rings: seq<seq<Point>>)
    | MultiPolygon(polygons: seq<seq<seq<Point>>>)

  /**
    `turf.booleanPointInPolygon(point, shape)`. The geometry itself is not
    verified: every operation that needs it takes the test as a parameter,
    so each result holds for whatever answers the library gives.
   */
  type Inside = (Geometry, Point) -> bool

  /** `turf.centroid(shape)`, likewise taken as a parameter. */
  type Centroid = Geometry -> Point
}

=== FILE: divisions.dfy ===
/**
  The province/canton/district resolver backed by three GeoJSON datasets
  whose features carry the names of their own division and of the
  divisions above it (`provincia`, `canton`, `distrito`). After loading,
  two indices are built: cantons grouped by province name, and districts
  grouped by the composite key `provincia-canton`. The loaded data and the
  indices are kept in a module-level cache that every hook instance shares.
 */
module Divisions {
  import opened Common
  import opened Seqs
  import opened Strings
  import opened Sorting

  /** Feature properties: the canton and district names may be absent. */
  datatype DivisionProperties =
    DivisionProperties(provincia: string, canton: Option<string>, distrito: Option<string>)

  datatype DivisionFeature = DivisionFeature(properties: DivisionProperties, geometry: Geometry)

  /** A grouping index: key to the features filed under it. */
  type Index = map<string, seq<DivisionFeature>>

  /** What the cache holds once all three datasets are loaded and indexed. */
  datatype CachedData = CachedData(
    provinces: seq<DivisionFeature>,
    cantons: seq<DivisionFeature>,
    districts: seq<DivisionFeature>,
    cantonsByProvince: Index,
    districtsByCanton: Index)

  /**
    The outcome of fetching, parsing and indexing the three files (an input
    here): a response that is not `ok`, which the loader turns into its own
    error; any other exception reaching the `catch` (a rejected `fetch`,
    malformed JSON, a dataset without `features`) with its message; or the
    three parsed datasets.
   */
  datatype FetchOutcome =
    | HttpFailure
    | Thrown(message: string)
    | Fetched(provinces: seq<DivisionFeature>, cantons: seq<DivisionFeature>, districts: seq<DivisionFeature>)

  const FETCH_ERROR := "Failed to fetch GeoJSON data"

  /** A string or `undefined` interpolated into a template literal. */
  function Interpolate(s: Option<string>): string
  {
    match s
    case None => "undefined"
    case Some(v) => v
  }

  /**
    A feature's province name: the key a canton is filed under, and the
    sort key of the province list.
   */
  function ProvinceName(f: DivisionFeature): string { f.properties.provincia }

  /**
    The key a district is filed under: `${provincia}-${canton}`. A district
    without a canton name is filed under `"<provincia>-undefined"`.
   */
  function CantonKey(f: DivisionFeature): (k: string)
    ensures f.properties.canton.Some? ==> k == f.properties.provincia + "-" + f.properties.canton.value
    ensures f.properties.canton.None? ==> k == f.properties.provincia + "-undefined"
  {
    f.properties.provincia + "-" + Interpolate(f.properties.canton)
  }


  /** The features of `fs` whose key is `k`, in dataset order. */
  function Bucket(fs: seq<DivisionFeature>, key: DivisionFeature -> string, k: string): seq<DivisionFeature>
  {
    Filter(fs, f => key(f) == k)
  }

  /** `idx` is the grouping of `fs` by `key` that the index loops build. */
  ghost predicate IsIndexOf(idx: Index, fs: seq<DivisionFeature>, key: DivisionFeature -> string)
  {
    && idx.Keys == (set f | f in fs :: key(f))
    && forall k :: k in idx ==> idx[k] == Bucket(fs, key, k)
  }

  /** Both indices of the cache are the groupings of its datasets. */
  ghost predicate Indexed(c: CachedData)
  {
    && IsIndexOf(c.cantonsByProvince, c.cantons, ProvinceName)
    && IsIndexOf(c.districtsByCanton, c.districts, CantonKey)
  }

  /** `map.get(k) || []`. */
  function Lookup(idx: Index, k: string): seq<DivisionFeature>
  {
    if k in idx then idx[k] else []
  }

  /**
    One `forEach` that files every feature under its key: a bucket is
    created the first time its key is seen and each feature is pushed to
    the end of its bucket.
   */
  method IndexBy(fs: seq<DivisionFeature>, key: DivisionFeature -> string) returns (idx: Index)
    ensures IsIndexOf(idx, fs, key)
  {
    idx := map[];
    var i := 0;
    while i < |fs|
      invariant 0 <= i <= |fs|
      invariant IsIndexOf(idx, fs[..i], key)
    {
      var f := fs[i];
      var k := key(f);
      ghost var prev := idx;
      if k !in idx {
        idx := idx[k := []];
      }
      idx := idx[k := idx[k] + [f]];
      assert fs[..i + 1] == fs[..i] + [f];
      forall k' | k' in idx
        ensures idx[k'] == Bucket(fs[..i + 1], key, k')
      {
        BucketSnoc(fs[..i], f, key, k');
        if k' == k && k !in prev {
          BucketEmpty(fs[..i], key, k);
        }
      }
      i := i + 1;
    }
    assert fs[..|fs|] == fs;
  }

  /** Appending a feature extends only the bucket of its own key. */
  lemma BucketSnoc(fs: seq<DivisionFeature>, f: DivisionFeature, key: DivisionFeature -> string, k: string)
    ensures Bucket(fs + [f], key, k) == Bucket(fs, key, k) + (if key(f) == k then [f] else [])
  {
    assert (fs + [f])[..|fs|] == fs;
  }

  /** A key no feature has gets an empty bucket. */
  lemma BucketEmpty(fs: seq<DivisionFeature>, key: DivisionFeature -> string, k: string)
    requires forall f :: f in fs ==> key(f) != k
    ensures Bucket(fs, key, k) == []
  {
    var b := Bucket(fs, key, k);
    if b != [] {
      FilterMembers(fs, f => key(f) == k, b[0]);
    }
  }

  /**
    Every occurrence of a feature is in the bucket of its own key and in no
    other, and each bucket lists its features in dataset order.
   */
  lemma IndexPartitions(idx: Index, fs: seq<DivisionFeature>, key: DivisionFeature -> string, k: string, x: DivisionFeature)
    requires IsIndexOf(idx, fs, key)
    ensures multiset(Lookup(idx, k))[x] == if key(x) == k then multiset(fs)[x] else 0
    ensures IsSubseq(Lookup(idx, k), fs)
    ensures x in Lookup(idx, k) ==> key(x) == k
  {
    if k in idx {
      FilterMultiset(fs, f => key(f) == k, x);
      FilterMembers(fs, f => key(f) == k, x);
      FilterIsSubseq(fs, f => key(f) == k);
    } else if key(x) == k {
      assert x !in fs;
    }
  }

  /** The sort keys of the canton and district lists: a missing name sorts as `''`. */
  function CantonName(f: DivisionFeature): string { if f.properties.canton.Some? then f.properties.canton.value else "" }
  function DistrictName(f: DivisionFeature): string { if f.properties.distrito.Some? then f.properties.distrito.value else "" }

  /** A `string | null` argument that JavaScript treats as false. */
  predicate Blank(s: Option<string>)
  {
    s.None? || s.value == ""
  }

  /** `getProvinces`: all provinces sorted by name, or `[]` before loading. */
  function GetProvinces(data: Option<CachedData>): (r: seq<DivisionFeature>)
    ensures data.None? ==> r == []
    ensures data.Some? ==> SortedBy(r, ProvinceName) && multiset(r) == multiset(data.value.provinces)
    ensures forall i, j :: 0 <= i <= j < |r| ==> StrLeq(ProvinceName(r[i]), ProvinceName(r[j]))
  {
    if data.None? then []
    else
      SortByOrdered(data.value.provinces, ProvinceName);
      SortBy(data.value.provinces, ProvinceName)
  }

  /** `getCantonsByProvince`: the province's bucket sorted by canton name. */
  function GetCantonsByProvince(data: Option<CachedData>, provinceName: Option<string>): (r: seq<DivisionFeature>)
    ensures data.None? || Blank(provinceName) ==> r == []
    ensures data.Some? && !Blank(provinceName) ==>
      && SortedBy(r, CantonName)
      && multiset(r) == multiset(Lookup(data.value.cantonsByProvince, provinceName.value))
    ensures forall i, j :: 0 <= i <= j < |r| ==> StrLeq(CantonName(r[i]), CantonName(r[j]))
  {
    if data.None? || Blank(provinceName) then []
    else
      SortByOrdered(Lookup(data.value.cantonsByProvince, provinceName.value), CantonName);
      SortBy(Lookup(data.value.cantonsByProvince, provinceName.value), CantonName)
  }

  /** `getDistrictsByCanton`: the bucket of key `province-canton`, sorted by district name. */
  function GetDistrictsByCanton(data: Option<CachedData>, provinceName: Option<string>, cantonName: Option<string>): (r: seq<DivisionFeature>)
    ensures data.None? || Blank(provinceName) || Blank(cantonName) ==> r == []
    ensures data.Some? && !Blank(provinceName) && !Blank(cantonName) ==>
      && SortedBy(r, DistrictName)
      && multiset(r) == multiset(Lookup(data.value.districtsByCanton, provinceName.value + "-" + cantonName.value))
    ensures forall i, j :: 0 <= i <= j < |r| ==> StrLeq(DistrictName(r[i]), DistrictName(r[j]))
  {
    if data.None? || Blank(provinceName) || Blank(cantonName) then []
    else
      SortByOrdered(Lookup(data.value.districtsByCanton, provinceName.value + "-" + cantonName.value), DistrictName);
      SortBy(Lookup(data.value.districtsByCanton, provinceName.value + "-" + cantonName.value), DistrictName)
  }

  /**
    On an indexed cache, the canton list of a province holds exactly the
    cantons whose `provincia` is that name, each as often as in the
    dataset; an unknown name gives `[]`.
   */
  lemma CantonsOfProvince(c: CachedData, p: string, x: DivisionFeature)
    requires Indexed(c) && p != ""
    ensures multiset(GetCantonsByProvince(Some(c), Some(p)))[x]
            == if x.properties.provincia == p then multiset(c.cantons)[x] else 0
    ensures (forall f :: f in c.cantons ==> f.properties.provincia != p) ==> GetCantonsByProvince(Some(c), Some(p)) == []
  {
    IndexPartitions(c.cantonsByProvince, c.cantons, ProvinceName, p, x);
    if forall f :: f in c.cantons ==> f.properties.provincia != p {
      assert p !in c.cantonsByProvince;
    }
  }

  /**
    On an indexed cache, the district list for `(p, c)` holds exactly the
    districts whose composite key is `p-c`, each as often as in the
    dataset; a key no district has gives `[]`.
   */
  lemma DistrictsOfCanton(c: CachedData, p: string, cn: string, x: DivisionFeature)
    requires Indexed(c) && p != "" && cn != ""
    ensures multiset(GetDistrictsByCanton(Some(c), Some(p), Some(cn)))[x]
            == if CantonKey(x) == p + "-" + cn then multiset(c.districts)[x] else 0
    ensures (forall f :: f in c.districts ==> CantonKey(f) != p + "-" + cn) ==> GetDistrictsByCanton(Some(c), Some(p), Some(cn)) == []
  {
    IndexPartitions(c.districtsByCanton, c.districts, CantonKey, p + "-" + cn, x);
    if forall f :: f in c.districts ==> CantonKey(f) != p + "-" + cn {
      assert p + "-" + cn !in c.districtsByCanton;
    }
  }

  /**
    A district without a canton name is listed under the canton name
    `"undefined"` of its own province.
   */
  lemma UnnamedCantonDistricts(c: CachedData, x: DivisionFeature)
    requires Indexed(c) && x in c.districts
    requires x.properties.canton.None? && x.properties.provincia != ""
    ensures x in GetDistrictsByCanton(Some(c), Some(x.properties.provincia), Some("undefined"))
  {
    DistrictsOfCanton(c, x.properties.provincia, "undefined", x);
    assert multiset(c.districts)[x] > 0;
  }

  /** The coordinates the form passes in: latitude and longitude. */
  datatype Coords = Coords(lat: real, lng: real)

  /** The names `findLocationByCoords` reports. */
  datatype FoundLocation = FoundLocation(province: string, canton: Option<string>, district: Option<string>)

  /** The point tested against the polygons: longitude first. */
  function PointOf(coords: Coords): (pt: Point)
    ensures pt.lng == coords.lng && pt.lat == coords.lat
  {
    Point(coords.lng, coords.lat)
  }

  /** `fs[i]` is the first feature of `fs` containing `pt`. */
  predicate IsFirstContaining(fs: seq<DivisionFeature>, inside: Inside, pt: Point, i: nat)
  {
    i < |fs| && inside(fs[i].geometry, pt) && forall j :: 0 <= j < i ==> !inside(fs[j].geometry, pt)
  }

  /** No feature of `fs` contains `pt`. */
  predicate NoneContains(fs: seq<DivisionFeature>, inside: Inside, pt: Point)
  {
    forall j :: 0 <= j < |fs| ==> !inside(fs[j].geometry, pt)
  }

  /**
    What `findLocationByCoords` answers: the first containing district;
    failing that the first containing canton, without a district; failing
    that the first containing province, with neither; else `null`.
   */
  function Locate(data: Option<CachedData>, coords: Coords, inside: Inside): (r: Option<FoundLocation>)
    ensures data.None? ==> r.None?
    ensures forall i: nat :: data.Some? && IsFirstContaining(data.value.districts, inside, PointOf(coords), i) ==>
      var d := data.value.districts[i].properties;
      r == Some(FoundLocation(d.provincia, d.canton, d.distrito))
    ensures forall i: nat :: (data.Some? && NoneContains(data.value.districts, inside, PointOf(coords))
                              && IsFirstContaining(data.value.cantons, inside, PointOf(coords), i)) ==>
      var c := data.value.cantons[i].properties;
      r == Some(FoundLocation(c.provincia, c.canton, None))
    ensures forall i: nat :: (data.Some? && NoneContains(data.value.districts, inside, PointOf(coords))
                              && NoneContains(data.value.cantons, inside, PointOf(coords))
                              && IsFirstContaining(data.value.provinces, inside, PointOf(coords), i)) ==>
      r == Some(FoundLocation(data.value.provinces[i].properties.provincia, None, None))
    ensures data.Some? ==>
      (r.None? <==> && NoneContains(data.value.districts, inside, PointOf(coords))
                    && NoneContains(data.value.cantons, inside, PointOf(coords))
                    && NoneContains(data.value.provinces, inside, PointOf(coords)))
  {
    if data.None? then None
    else
      var pt := PointOf(coords);
      var c := data.value;
      match FirstIndex(c.districts, (f: DivisionFeature) => inside(f.geometry, pt))
      case Some(i) =>
        var d := c.districts[i].properties;
        Some(FoundLocation(d.provincia, d.canton, d.distrito))
      case None =>
        match FirstIndex(c.cantons, (f: DivisionFeature) => inside(f.geometry, pt))
        case Some(i) =>
          Some(FoundLocation(c.cantons[i].properties.provincia, c.cantons[i].properties.canton, None))
        case None =>
          match FirstIndex(c.provinces, (f: DivisionFeature) => inside(f.geometry, pt))
          case Some(i) => Some(FoundLocation(c.provinces[i].properties.provincia, None, None))
          case None => None
  }

  /** `findLocationByCoords`: three scans in turn, each returning on its first hit. */
  method FindLocationByCoords(data: Option<CachedData>, coords: Coords, inside: Inside) returns (r: Option<FoundLocation>)
    ensures r == Locate(data, coords, inside)
  {
    if data.None? {
      return None;
    }
    var c := data.value;
    var pt := Point(coords.lng, coords.lat);

    var i := 0;
    while i < |c.districts|
      invariant 0 <= i <= |c.districts|
      invariant forall j :: 0 <= j < i ==> !inside(c.districts[j].geometry, pt)
    {
      if inside(c.districts[i].geometry, pt) {
        assert IsFirstContaining(c.districts, inside, PointOf(coords), i);
        var d := c.districts[i].properties;
        return Some(FoundLocation(d.provincia, d.canton, d.distrito));
      }
      i := i + 1;
    }
    assert NoneContains(c.districts, inside, PointOf(coords));

    i := 0;
    while i < |c.cantons|
      invariant 0 <= i <= |c.cantons|
      invariant forall j :: 0 <= j < i ==> !inside(c.cantons[j].geometry, pt)
    {
      if inside(c.cantons[i].geometry, pt) {
        assert IsFirstContaining(c.cantons, inside, PointOf(coords), i);
        return Some(FoundLocation(c.cantons[i].properties.provincia, c.cantons[i].properties.canton, None));
      }
      i := i + 1;
    }
    assert NoneContains(c.cantons, inside, PointOf(coords));

    i := 0;
    while i < |c.provinces|
      invariant 0 <= i <= |c.provinces|
      invariant forall j :: 0 <= j < i ==> !inside(c.provinces[j].geometry, pt)
    {
      if inside(c.provinces[i].geometry, pt) {
        assert IsFirstContaining(c.provinces, inside, PointOf(coords), i);
        return Some(FoundLocation(c.provinces[i].properties.provincia, None, None));
      }
      i := i + 1;
    }
    assert NoneContains(c.provinces, inside, PointOf(coords));
    return None;
  }

  /** The module-level `dataCache`, shared by every hook instance. */
  class DivisionCache {
    var data: Option<CachedData>

    ghost predicate Valid()
      reads this
    {
      data.Some? ==> Indexed(data.value)
    }

    constructor ()
      ensures Valid() && data.None?
    {
      data := None;
    }
  }

  /** One mounted `useCostaRicaDivisions` hook: its state and its loader. */
  class DivisionsHook {
    const shared: DivisionCache
    var data: Option<CachedData>
    var isLoading: bool
    var error: Option<string>

    ghost predicate Valid()
      reads this, shared
    {
      shared.Valid() && (data.Some? ==> Indexed(data.value))
    }

    /** Mounting: the state starts from whatever the cache holds. */
    constructor (shared: DivisionCache)
      requires shared.Valid()
      ensures Valid() && this.shared == shared
      ensures data == shared.data && isLoading == shared.data.None? && error.None?
    {
      this.shared := shared;
      data := shared.data;
      isLoading := shared.data.None?;
      error := None;
    }

    /**
      The mount effect `fetchData`. The cache is tested once, when the
      effect starts: a filled cache only clears the loading flag; an empty
      one starts the load, which runs to completion in `LoadAndStore`.
     */
    method FetchData(outcome: FetchOutcome)
      requires Valid()
      modifies this, shared
      ensures Valid() && !isLoading
      ensures old(shared.data).Some? ==>
        shared.data == old(shared.data) && data == old(data) && error == old(error)
      ensures old(shared.data).None? && outcome.HttpFailure? ==>
        shared.data.None? && data == old(data) && error == Some(FETCH_ERROR)
      ensures old(shared.data).None? && outcome.Thrown? ==>
        shared.data.None? && data == old(data) && error == Some(outcome.message)
      ensures old(shared.data).None? && outcome.Fetched? ==>
        && shared.data.Some? && data == shared.data && error == old(error)
        && shared.data.value.provinces == outcome.provinces
        && shared.data.value.cantons == outcome.cantons
        && shared.data.value.districts == outcome.districts
    {
      if shared.data.Some? {
        isLoading := false;
        return;
      }
      LoadAndStore(outcome);
    }

    /**
      The load that follows a cache miss, from the `try` to the `finally`.
      It does not test the cache again: a successful load writes the cache
      whatever it holds by then, so when two hooks both found the cache
      empty, the load that finishes last overwrites the other's data. A
      failure records the error and leaves the cache as it is.
     */
    method LoadAndStore(outcome: FetchOutcome)
      requires Valid()
      modifies this, shared
      ensures Valid() && !isLoading
      ensures outcome.HttpFailure? ==>
        shared.data == old(shared.data) && data == old(data) && error == Some(FETCH_ERROR)
      ensures outcome.Thrown? ==>
        shared.data == old(shared.data) && data == old(data) && error == Some(outcome.message)
      ensures outcome.Fetched? ==>
        && shared.data.Some? && data == shared.data && error == old(error)
        && shared.data.value.provinces == outcome.provinces
        && shared.data.value.cantons == outcome.cantons
        && shared.data.value.districts == outcome.districts
    {
      match outcome {
        case HttpFailure =>
          error := Some(FETCH_ERROR);
        case Thrown(message) =>
          error := Some(message);
        case Fetched(provinces, cantons, districts) =>
          var cantonsByProvince := IndexBy(cantons, ProvinceName);
          var districtsByCanton := IndexBy(districts, CantonKey);
          var processed := CachedData(provinces, cantons, districts, cantonsByProvince, districtsByCanton);
          shared.data := Some(processed);
          data := Some(processed);
      }
      isLoading := false;
    }
  }
}

=== FILE: geojson.dfy ===
/**
  The geoBoundaries variant of the resolver. Its features carry only their
  own `shapeID` and `shapeName`; the hierarchy is recovered geometrically
  (a child belongs to a parent when the child's centroid lies inside the
  parent), and a point query searches each level on its own.
 */
module GeoJson {
  import opened Common
  import opened Seqs
  import opened Strings

  datatype ShapeFeature = ShapeFeature(shapeID: string, shapeName: string, geometry: Geometry)

  /** The hook's `geoData`: each dataset is `null` until its file is loaded. */
  datatype GeoData = GeoData(
    provinces: Option<seq<ShapeFeature>>,
    cantons: Option<seq<ShapeFeature>>,
    districts: Option<seq<ShapeFeature>>)

  /** The result of a point query: one feature or `null` per level. */
  datatype Located = Located(province: Option<ShapeFeature>, canton: Option<ShapeFeature>, district: Option<ShapeFeature>)

  /** One entry of a drop-down: `{ value, label, feature }` (`label` is `text` here). */
  datatype SelectOption = SelectOption(value: string, text: string, feature: ShapeFeature)

  const PROVINCE_PREFIX := "Provincia "

  /** `fs[i]` is the first feature of `fs` containing `pt`. */
  predicate IsFirstContaining(fs: seq<ShapeFeature>, inside: Inside, pt: Point, i: nat)
  {
    i < |fs| && inside(fs[i].geometry, pt) && forall j :: 0 <= j < i ==> !inside(fs[j].geometry, pt)
  }

  /** The feature one `for … break` scan finds: the first containing `pt`, or `null`. */
  function FirstContaining(fs: seq<ShapeFeature>, inside: Inside, pt: Point): (r: Option<ShapeFeature>)
    ensures r.None? <==> forall j :: 0 <= j < |fs| ==> !inside(fs[j].geometry, pt)
    ensures forall i: nat :: IsFirstContaining(fs, inside, pt, i) ==> r == Some(fs[i])
  {
    match FirstIndex(fs, (f: ShapeFeature) => inside(f.geometry, pt))
    case None => None
    case Some(i) => Some(fs[i])
  }

  /** One level of `findLocationByCoordinates`: scan until the first hit, then `break`. */
  method ScanLevel(fs: seq<ShapeFeature>, inside: Inside, pt: Point) returns (found: Option<ShapeFeature>)
    ensures found == FirstContaining(fs, inside, pt)
  {
    found := None;
    var i := 0;
    while i < |fs|
      invariant 0 <= i <= |fs|
      invariant found.None?
      invariant forall j :: 0 <= j < i ==> !inside(fs[j].geometry, pt)
    {
      if inside(fs[i].geometry, pt) {
        found := Some(fs[i]);
        assert IsFirstContaining(fs, inside, pt, i);
        break;
      }
      i := i + 1;
    }
  }

  /**
    `findLocationByCoordinates(lat, lng)`: `null` unless all three datasets
    are loaded; otherwise the point `(lng, lat)` is searched at every level
    independently, so each field is that level's first containing feature
    whatever the other levels found.
   */
  method FindLocationByCoordinates(geo: GeoData, lat: real, lng: real, inside: Inside) returns (r: Option<Located>)
    ensures geo.provinces.None? || geo.cantons.None? || geo.districts.None? ==> r.None?
    ensures geo.provinces.Some? && geo.cantons.Some? && geo.districts.Some? ==>
      && r.Some?
      && r.value.district == FirstContaining(geo.districts.value, inside, Point(lng, lat))
      && r.value.canton == FirstContaining(geo.cantons.value, inside, Point(lng, lat))
      && r.value.province == FirstContaining(geo.provinces.value, inside, Point(lng, lat))
  {
    if geo.provinces.None? || geo.cantons.None? || geo.districts.None? {
      return None;
    }
    var point := Point(lng, lat);
    var result := Located(None, None, None);
    var district := ScanLevel(geo.districts.value, inside, point);
    result := result.(district := district);
    var canton := ScanLevel(geo.cantons.value, inside, point);
    result := result.(canton := canton);
    var province := ScanLevel(geo.provinces.value, inside, point);
    result := result.(province := province);
    return Some(result);
  }

  /** `getProvinces`: one option per province, the label losing its first `"Provincia "`. */
  function GetProvinces(geo: GeoData): (r: seq<SelectOption>)
    ensures geo.provinces.None? ==> r == []
    ensures geo.provinces.Some? ==> |r| == |geo.provinces.value|
    ensures geo.provinces.Some? ==> forall i :: 0 <= i < |r| ==>
      && r[i].feature == geo.provinces.value[i]
      && r[i].value == geo.provinces.value[i].shapeID
      && r[i].text == RemoveFirst(geo.provinces.value[i].shapeName, PROVINCE_PREFIX)
  {
    match geo.provinces
    case None => []
    case Some(ps) =>
      seq(|ps|, i requires 0 <= i < |ps| =>
        SelectOption(ps[i].shapeID, RemoveFirst(ps[i].shapeName, PROVINCE_PREFIX), ps[i]))
  }

  /** A province named `"Provincia X"` is listed with label `"X"`. */
  lemma ProvinceLabel(geo: GeoData, i: nat, rest: string)
    requires geo.provinces.Some? && i < |geo.provinces.value|
    requires geo.provinces.value[i].shapeName == PROVINCE_PREFIX + rest
    ensures GetProvinces(geo)[i].text == rest
  {
    RemoveFirstPrefix(PROVINCE_PREFIX, rest);
  }

  /** The province test of `getCantonsByProvince`: id equality or name substring. */
  predicate ProvinceMatches(f: ShapeFeature, provinceName: string)
  {
    f.shapeID == provinceName || Includes(f.shapeName, provinceName)
  }

  /** `provinces.find(...)`: the first province matching `provinceName`. */
  function SelectProvince(ps: seq<ShapeFeature>, provinceName: string): (r: Option<nat>)
    ensures r.Some? ==> r.value < |ps| && ProvinceMatches(ps[r.value], provinceName)
    ensures r.Some? ==> forall j :: 0 <= j < r.value ==> !ProvinceMatches(ps[j], provinceName)
    ensures r.None? ==> forall j :: 0 <= j < |ps| ==> !ProvinceMatches(ps[j], provinceName)
  {
    FirstIndex(ps, (f: ShapeFeature) => ProvinceMatches(f, provinceName))
  }

  /** Since every name includes `""`, the empty name selects the first province. */
  lemma EmptyNameSelectsFirst(ps: seq<ShapeFeature>)
    requires |ps| > 0
    ensures SelectProvince(ps, "") == Some(0)
  {
    IncludesEmpty(ps[0].shapeName);
  }

  /** `cantons.find(...)`: the first canton whose id is exactly `cantonId`. */
  function SelectCanton(cs: seq<ShapeFeature>, cantonId: string): (r: Option<nat>)
    ensures r.Some? ==> r.value < |cs| && cs[r.value].shapeID == cantonId
    ensures r.Some? ==> forall j :: 0 <= j < r.value ==> cs[j].shapeID != cantonId
    ensures r.None? ==> forall j :: 0 <= j < |cs| ==> cs[j].shapeID != cantonId
  {
    FirstIndex(cs, (f: ShapeFeature) => f.shapeID == cantonId)
  }

  /** The option a canton or district is listed as. */
  function AsOption(f: ShapeFeature): SelectOption
  {
    SelectOption(f.shapeID, f.shapeName, f)
  }

  function Features(os: seq<SelectOption>): (r: seq<ShapeFeature>)
    ensures |r| == |os| && forall i :: 0 <= i < |os| ==> r[i] == os[i].feature
  {
    seq(|os|, i requires 0 <= i < |os| => os[i].feature)
  }

  /** `fs.map(toOption)`: one option per feature, in order. */
  function AsOptions(fs: seq<ShapeFeature>): (r: seq<SelectOption>)
    ensures Features(r) == fs
    ensures forall o :: o in r ==> o == AsOption(o.feature) && o.feature in fs
    ensures forall f :: f in fs ==> AsOption(f) in r
  {
    var r := seq(|fs|, i requires 0 <= i < |fs| => AsOption(fs[i]));
    assert Features(r) == fs;
    assert forall o :: o in r ==> o == AsOption(o.feature) && o.feature in fs by {
      forall o | o in r ensures o == AsOption(o.feature) && o.feature in fs {
        var i :| 0 <= i < |r| && r[i] == o;
        assert o.feature == fs[i];
      }
    }
    assert forall f :: f in fs ==> AsOption(f) in r by {
      forall f | f in fs ensures AsOption(f) in r {
        var i :| 0 <= i < |fs| && fs[i] == f;
        assert r[i] == AsOption(f);
      }
    }
    r
  }

  /** A child belongs to `parent` when the child's centroid lies inside it. */
  predicate CentroidInside(parent: ShapeFeature, child: ShapeFeature, inside: Inside, centroid: Centroid)
  {
    inside(parent.geometry, centroid(child.geometry))
  }

  /**
    `children.filter(centroid inside parent).map(toOption)`: exactly the
    children whose centroid lies in `parent`, each as often as in the
    dataset, listed in dataset order.
   */
  function ChildrenInside(parent: ShapeFeature, children: seq<ShapeFeature>, inside: Inside, centroid: Centroid): (r: seq<SelectOption>)
    ensures forall o :: o in r ==> o == AsOption(o.feature) && o.feature in children && CentroidInside(parent, o.feature, inside, centroid)
    ensures forall c :: c in children && CentroidInside(parent, c, inside, centroid) ==> AsOption(c) in r
    ensures IsSubseq(Features(r), children)
    ensures forall x :: multiset(Features(r))[x] == if CentroidInside(parent, x, inside, centroid) then multiset(children)[x] else 0
  {
    var belongs := (c: ShapeFeature) => CentroidInside(parent, c, inside, centroid);
    FilterMembersAll(children, belongs);
    FilterIsSubseq(children, belongs);
    FilterMultisetAll(children, belongs);
    AsOptions(Filter(children, belongs))
  }

  /**
    `getCantonsByProvince(provinceName)`: `[]` when either dataset is
    missing or no province matches; otherwise the cantons whose centroid
    lies in the first matching province.
   */
  function GetCantonsByProvince(geo: GeoData, provinceName: string, inside: Inside, centroid: Centroid): (r: seq<SelectOption>)
    ensures geo.cantons.None? || geo.provinces.None? ==> r == []
    ensures geo.cantons.Some? && geo.provinces.Some? && SelectProvince(geo.provinces.value, provinceName).None? ==> r == []
    ensures geo.cantons.Some? && geo.provinces.Some? && SelectProvince(geo.provinces.value, provinceName).Some? ==>
      r == ChildrenInside(geo.provinces.value[SelectProvince(geo.provinces.value, provinceName).value], geo.cantons.value, inside, centroid)
  {
    if geo.cantons.None? || geo.provinces.None? then []
    else match SelectProvince(geo.provinces.value, provinceName)
      case None => []
      case Some(i) => ChildrenInside(geo.provinces.value[i], geo.cantons.value, inside, centroid)
  }

  /**
    `getDistrictsByCanton(cantonId)`: `[]` when either dataset is missing
    or no canton has that exact id; otherwise the districts whose centroid
    lies in that canton.
   */
  function GetDistrictsByCanton(geo: GeoData, cantonId: string, inside: Inside, centroid: Centroid): (r: seq<SelectOption>)
    ensures geo.districts.None? || geo.cantons.None? ==> r == []
    ensures geo.districts.Some? && geo.cantons.Some? && SelectCanton(geo.cantons.value, cantonId).None? ==> r == []
    ensures geo.districts.Some? && geo.cantons.Some? && SelectCanton(geo.cantons.value, cantonId).Some? ==>
      r == ChildrenInside(geo.cantons.value[SelectCanton(geo.cantons.value, cantonId).value], geo.districts.value, inside, centroid)
  {
    if geo.districts.None? || geo.cantons.None? then []
    else match SelectCanton(geo.cantons.value, cantonId)
      case None => []
      case Some(i) => ChildrenInside(geo.cantons.value[i], geo.districts.value, inside, centroid)
  }
}

=== FILE: locations.dfy ===
/**
  The static nested code table of Costa Rica's divisions:
  `provincias[code] = { nombre, cantones[code] = { nombre, distritos[code] = name } }`.
  The hook holds it in state and never replaces it; every getter is a
  guarded read of it. The lists are built from `Object.keys`, whose order
  this model does not fix: `KeyList` picks some order, and nothing below
  depends on which.
 */
module Locations {
  import opened Common

  datatype Canton = Canton(nombre: string, distritos: map<string, string>, bbox: Option<seq<real>>)
  datatype Province = Province(nombre: string, cantones: map<string, Canton>, bbox: seq<real>)
  datatype LocationData = LocationData(provincias: map<string, Province>)

  /** One `{ code, name }` list entry. */
  datatype Entry = Entry(code: string, name: string)

  /** `Object.keys(m)`: every key once, in an order this model leaves unspecified. */
  ghost function KeyList<V>(m: map<string, V>): (r: seq<string>)
    ensures |r| == |m|
    ensures forall k :: k in r <==> k in m
    ensures forall i, j :: 0 <= i < j < |r| ==> r[i] != r[j]
  {
    if m == map[] then []
    else
      var k :| k in m;
      var rest := m - {k};
      assert |rest| == |m| - 1;
      [k] + KeyList(rest)
  }

  /** `keys.map(code => ({ code, name: name(m[code]) }))`. */
  ghost function EntriesOf<V>(ks: seq<string>, m: map<string, V>, name: V -> string): (r: seq<Entry>)
    requires forall k :: k in ks ==> k in m
    ensures |r| == |ks|
    ensures forall i :: 0 <= i < |ks| ==> r[i] == Entry(ks[i], name(m[ks[i]]))
  {
    if ks == [] then [] else [Entry(ks[0], name(m[ks[0]]))] + EntriesOf(ks[1..], m, name)
  }

  /** The entries of a list of distinct keys name each key once, and nothing else. */
  lemma EntriesCover<V>(ks: seq<string>, m: map<string, V>, name: V -> string)
    requires forall k :: k in ks ==> k in m
    requires forall i, j :: 0 <= i < j < |ks| ==> ks[i] != ks[j]
    ensures forall e :: e in EntriesOf(ks, m, name) ==> e.code in ks && e.name == name(m[e.code])
    ensures forall k :: k in ks ==> Entry(k, name(m[k])) in EntriesOf(ks, m, name)
    ensures forall i, j :: 0 <= i < j < |ks| ==> EntriesOf(ks, m, name)[i].code != EntriesOf(ks, m, name)[j].code
  {
    var r := EntriesOf(ks, m, name);
    forall e | e in r ensures e.code in ks && e.name == name(m[e.code]) {
      var i :| 0 <= i < |r| && r[i] == e;
      assert r[i] == Entry(ks[i], name(m[ks[i]]));
    }
    forall k | k in ks ensures Entry(k, name(m[k])) in r {
      var i :| 0 <= i < |ks| && ks[i] == k;
      assert r[i] == Entry(k, name(m[k]));
    }
  }

  /** `Object.keys(m).map(code => ({ code, name: name(m[code]) }))`: one entry per key. */
  ghost function NamedEntries<V>(m: map<string, V>, name: V -> string): (r: seq<Entry>)
    ensures |r| == |m|
    ensures forall e :: e in r ==> e.code in m && e.name == name(m[e.code])
    ensures forall k :: k in m ==> Entry(k, name(m[k])) in r
    ensures forall i, j :: 0 <= i < j < |r| ==> r[i].code != r[j].code
  {
    var ks := KeyList(m);
    EntriesCover(ks, m, name);
    EntriesOf(ks, m, name)
  }

  /** `provinces`: one entry per province code, named by its `nombre`. */
  ghost function Provinces(data: LocationData): (r: seq<Entry>)
    ensures |r| == |data.provincias|
    ensures forall e :: e in r ==> e.code in data.provincias && e.name == data.provincias[e.code].nombre
    ensures forall p :: p in data.provincias ==> Entry(p, data.provincias[p].nombre) in r
  {
    NamedEntries(data.provincias, (p: Province) => p.nombre)
  }

  /** `getCantons(p)`: `[]` for an empty or unknown code, else one entry per canton. */
  ghost function GetCantons(data: LocationData, provinceCode: string): (r: seq<Entry>)
    ensures provinceCode == "" || provinceCode !in data.provincias ==> r == []
    ensures provinceCode != "" && provinceCode in data.provincias ==>
      var cs := data.provincias[provinceCode].cantones;
      && |r| == |cs|
      && (forall e :: e in r ==> e.code in cs && e.name == cs[e.code].nombre)
      && (forall c :: c in cs ==> Entry(c, cs[c].nombre) in r)
  {
    if provinceCode == "" || provinceCode !in data.provincias then []
    else NamedEntries(data.provincias[provinceCode].cantones, (c: Canton) => c.nombre)
  }

  /** The guard `getDistricts` and `getCanton` share. */
  predicate CantonExists(data: LocationData, provinceCode: string, cantonCode: string)
  {
    && provinceCode != "" && cantonCode != ""
    && provinceCode in data.provincias
    && cantonCode in data.provincias[provinceCode].cantones
  }

  /** `getDistricts(p, c)`: `[]` unless the canton exists, else one entry per district. */
  ghost function GetDistricts(data: LocationData, provinceCode: string, cantonCode: string): (r: seq<Entry>)
    ensures !CantonExists(data, provinceCode, cantonCode) ==> r == []
    ensures CantonExists(data, provinceCode, cantonCode) ==>
      var ds := data.provincias[provinceCode].cantones[cantonCode].distritos;
      && |r| == |ds|
      && (forall e :: e in r ==> e.code in ds && e.name == ds[e.code])
      && (forall d :: d in ds ==> Entry(d, ds[d]) in r)
  {
    if !CantonExists(data, provinceCode, cantonCode) then []
    else NamedEntries(data.provincias[provinceCode].cantones[cantonCode].distritos, (name: string) => name)
  }

  /** `getCanton(p, c)`: the stored canton, or `null` when the guard fails. */
  function GetCanton(data: LocationData, provinceCode: string, cantonCode: string): (r: Option<Canton>)
    ensures r.None? <==> !CantonExists(data, provinceCode, cantonCode)
    ensures r.Some? ==> provinceCode in data.provincias && r.value == data.provincias[provinceCode].cantones[cantonCode]
  {
    if !CantonExists(data, provinceCode, cantonCode) then None
    else Some(data.provincias[provinceCode].cantones[cantonCode])
  }

  /** `getProvince(p)`: the stored province, or `null` for an empty or unknown code. */
  function GetProvince(data: LocationData, provinceCode: string): (r: Option<Province>)
    ensures r.None? <==> provinceCode == "" || provinceCode !in data.provincias
    ensures r.Some? ==> r.value == data.provincias[provinceCode]
  {
    if provinceCode == "" || provinceCode !in data.provincias then None
    else Some(data.provincias[provinceCode])
  }

  /**
    `getCanton` is `null` exactly when `getDistricts` bails out; otherwise
    the district list is the stored canton's districts.
   */
  lemma CantonAgreesWithDistricts(data: LocationData, provinceCode: string, cantonCode: string)
    ensures GetCanton(data, provinceCode, cantonCode).None? ==> GetDistricts(data, provinceCode, cantonCode) == []
    ensures GetCanton(data, provinceCode, cantonCode).Some? ==>
      var ds := GetCanton(data, provinceCode, cantonCode).value.distritos;
      |GetDistricts(data, provinceCode, cantonCode)| == |ds|
      && forall d :: d in ds ==> Entry(d, ds[d]) in GetDistricts(data, provinceCode, cantonCode)
  {
  }

  /** An unknown province has no cantons; a known one lists all of its own. */
  lemma ProvinceAgreesWithCantons(data: LocationData, provinceCode: string)
    ensures GetProvince(data, provinceCode).None? ==> GetCantons(data, provinceCode) == []
    ensures GetProvince(data, provinceCode).Some? ==>
      |GetCantons(data, provinceCode)| == |GetProvince(data, provinceCode).value.cantones|
  {
  }
}

=== FILE: navbar.dfy ===
/**
  The navigation bar's category filter. The URL query is a map from
  parameter names to values; clicking a category box toggles the
  `category` parameter and navigates to `/` with the new query.
 */
module Navbar {
  import opened Common

  type Query = map<string, string>

  const CATEGORY := "category"
  const ROOT := "/"

  /** The category boxes: one per province, with distinct labels. */
  const CATEGORY_LABELS: seq<string> :=
    ["San José", "Alajuela", "Heredia", "Cartago", "Guanacaste", "Puntarenas", "Limón"]

  /** Where `router.push` is sent: a path and its query. */
  datatype Navigation = Navigation(path: string, query: Query)

  /** The parsed current query; absent search parameters parse to `{}`. */
  function CurrentQuery(params: Option<Query>): Query
  {
    if params.Some? then params.value else map[]
  }

  /** `params?.get('category') === label`: the box is shown as selected. */
  predicate IsSelected(params: Option<Query>, categoryLabel: string)
  {
    params.Some? && CATEGORY in params.value && params.value[CATEGORY] == categoryLabel
  }

  /**
    The selected flag reads `category` from the same query the click
    handler starts from: a box is selected exactly when that query holds
    its label under `category`.
   */
  lemma SelectedMeansCategory(params: Option<Query>, categoryLabel: string)
    ensures IsSelected(params, categoryLabel) <==>
      CATEGORY in CurrentQuery(params) && CurrentQuery(params)[CATEGORY] == categoryLabel
  {
  }

  /**
    `handleSelectCategory(label)`: the query with `category` set to the
    label, or with `category` removed if the label was already selected;
    every other parameter is carried over, and the target path is `/`.
   */
  function SelectCategory(params: Option<Query>, categoryLabel: string): (nav: Navigation)
    ensures nav.path == ROOT
    ensures IsSelected(params, categoryLabel) ==> CATEGORY !in nav.query
    ensures !IsSelected(params, categoryLabel) ==> CATEGORY in nav.query && nav.query[CATEGORY] == categoryLabel
    ensures forall k :: k != CATEGORY ==> (k in nav.query <==> k in CurrentQuery(params))
    ensures forall k :: k != CATEGORY && k in nav.query ==> nav.query[k] == CurrentQuery(params)[k]
  {
    var updated := CurrentQuery(params)[CATEGORY := categoryLabel];
    if IsSelected(params, categoryLabel) then Navigation(ROOT, updated - {CATEGORY})
    else Navigation(ROOT, updated)
  }

  /**
    Selecting the same category twice, from a query where it was not
    selected, drops `category` and restores every other parameter.
   */
  lemma SelectTwice(q: Query, categoryLabel: string)
    requires !IsSelected(Some(q), categoryLabel)
    ensures SelectCategory(Some(SelectCategory(Some(q), categoryLabel).query), categoryLabel).query == q - {CATEGORY}
  {
    var once := SelectCategory(Some(q), categoryLabel).query;
    var twice := SelectCategory(Some(once), categoryLabel).query;
    assert IsSelected(Some(once), categoryLabel);
    assert twice.Keys == (q - {CATEGORY}).Keys;
  }

  /** After a click exactly the clicked box is selected, or none if it was selected before. */
  lemma SelectionAfterClick(params: Option<Query>, categoryLabel: string, other: string)
    ensures var after := Some(SelectCategory(params, categoryLabel).query);
      && (IsSelected(after, categoryLabel) <==> !IsSelected(params, categoryLabel))
      && (other != categoryLabel ==> !IsSelected(after, other))
  {
  }

  /** The labels are distinct, so at most one category box is selected at a time. */
  lemma AtMostOneSelected(params: Option<Query>, i: nat, j: nat)
    requires i < |CATEGORY_LABELS| && j < |CATEGORY_LABELS| && i != j
    ensures !(IsSelected(params, CATEGORY_LABELS[i]) && IsSelected(params, CATEGORY_LABELS[j]))
  {
    assert CATEGORY_LABELS[i] != CATEGORY_LABELS[j];
  }
}

=== FILE: rent_modal.dfy ===
/**
  The listing wizard: a five-step form whose location step lets the user
  pick a province (the map jumps to the province's centre) or use the
  browser's position (accepted only inside Costa Rica's bounding box, the
  province then taken from the reverse-geocoded state name). A flag set
  while geolocation runs keeps the province effect from moving the map
  back to the province centre.
 */
module RentModal {
  import opened Common
  import opened Strings

  /** The wizard steps, `STEPS.CATEGORY` to `STEPS.DESCRIPTION_PRICE`. */
  const CATEGORY := 0
  const LOCATION := 1
  const INFO := 2
  const IMAGES := 3
  const DESCRIPTION_PRICE := 4

  /** A map position in Leaflet's order: latitude, then longitude. */
  datatype LatLng = LatLng(lat: real, lng: real)

  /** The centre the map moves to for each province. */
  const PROVINCE_COORDINATES: map<string, LatLng> := map[
    "San José" := LatLng(9.9281, -84.0907),
    "Alajuela" := LatLng(10.0163, -84.2117),
    "Cartago" := LatLng(9.8644, -83.9196),
    "Heredia" := LatLng(9.9983, -84.1194),
    "Guanacaste" := LatLng(10.6333, -85.4333),
    "Puntarenas" := LatLng(9.9766, -84.8384),
    "Limón" := LatLng(9.9913, -83.0315)
  ]

  const DEFAULT_PROVINCE := "San José"
  const STATE_PREFIX := "Provincia de "
  const PROVINCE_ZOOM := 14
  const POSITION_ZOOM := 18

  /** Costa Rica's bounding box, south-west and north-east corners. */
  const SOUTH_WEST := LatLng(8.04, -87.09)
  const NORTH_EAST := LatLng(11.23, -82.56)

  /**
    `getProvinceKey(name)`: drop the first `"Provincia de "`, trim, and
    accept the result only if it is one of the province keys.
   */
  function GetProvinceKey(provinceName: string): (r: Option<string>)
    ensures r.Some? ==> r.value in PROVINCE_COORDINATES
    ensures r.Some? <==> Trim(RemoveFirst(provinceName, STATE_PREFIX)) in PROVINCE_COORDINATES
    ensures r.Some? ==> r.value == Trim(RemoveFirst(provinceName, STATE_PREFIX))
  {
    var normalized := Trim(RemoveFirst(provinceName, STATE_PREFIX));
    if normalized in PROVINCE_COORDINATES then Some(normalized) else None
  }

  /** No province key starts or ends with whitespace or is as long as the prefix. */
  lemma ProvinceKeysPlain(k: string)
    requires k in PROVINCE_COORDINATES
    ensures k != [] && !IsWhitespace(k[0]) && !IsWhitespace(k[|k| - 1])
    ensures |k| < |STATE_PREFIX|
  {
  }

  /**
    Every province key normalises to itself, both bare and as the state
    name `"Provincia de <key>"`; so normalising a result again gives it back.
   */
  lemma ProvinceKeyOfKey(k: string)
    requires k in PROVINCE_COORDINATES
    ensures GetProvinceKey(k) == Some(k)
    ensures GetProvinceKey(STATE_PREFIX + k) == Some(k)
  {
    ProvinceKeysPlain(k);
    RemoveFirstShort(k, STATE_PREFIX);
    RemoveFirstPrefix(STATE_PREFIX, k);
    TrimKeeps(k);
  }

  lemma ProvinceKeyIdempotent(provinceName: string)
    requires GetProvinceKey(provinceName).Some?
    ensures GetProvinceKey(GetProvinceKey(provinceName).value) == GetProvinceKey(provinceName)
  {
    ProvinceKeyOfKey(GetProvinceKey(provinceName).value);
  }

  /** The bounds check, inclusive on all four sides. */
  predicate InCostaRica(lat: real, lng: real)
  {
    && SOUTH_WEST.lat <= lat <= NORTH_EAST.lat
    && SOUTH_WEST.lng <= lng <= NORTH_EAST.lng
  }

  /**
    The bounds are inclusive: both corners of the box are accepted, and so
    is the centre of every province the map can jump to.
   */
  lemma CornersAndCentresInBounds(p: string)
    requires p in PROVINCE_COORDINATES
    ensures InCostaRica(SOUTH_WEST.lat, SOUTH_WEST.lng) && InCostaRica(NORTH_EAST.lat, NORTH_EAST.lng)
    ensures InCostaRica(PROVINCE_COORDINATES[p].lat, PROVINCE_COORDINATES[p].lng)
  {
  }

  /** The primary button: `"Crear"` on the last step, `"Siguiente"` before. */
  function ActionLabel(step: int): (r: string)
    ensures r == "Crear" <==> step == DESCRIPTION_PRICE
    ensures r != "Crear" ==> r == "Siguiente"
  {
    if step == DESCRIPTION_PRICE then "Crear" else "Siguiente"
  }

  /** The secondary button: absent on the first step, `"Atrás"` after. */
  function SecondaryActionLabel(step: int): (r: Option<string>)
    ensures r.None? <==> step == CATEGORY
    ensures r.Some? ==> r.value == "Atrás"
  {
    if step == CATEGORY then None else Some("Atrás")
  }

  /**
    The province after a reverse-geocoded state name: its key when it has
    one, else the current province.
   */
  function GeocodedProvince(current: string, state: Option<string>): (p: string)
    ensures current in PROVINCE_COORDINATES ==> p in PROVINCE_COORDINATES
    ensures state.None? ==> p == current
    ensures state.Some? && GetProvinceKey(state.value).None? ==> p == current
    ensures state.Some? && GetProvinceKey(state.value).Some? ==> p == GetProvinceKey(state.value).value
  {
    if state.Some? && GetProvinceKey(state.value).Some? then GetProvinceKey(state.value).value else current
  }

  /** The fields of the form that this model follows, as one value. */
  datatype FormState = FormState(
    step: int,
    location: Option<LatLng>,
    mapZoom: int,
    isGeolocating: bool,
    isLoading: bool,
    province: string,
    contactPhone: string,
    contactWhatsapp: string,
    isWhatsappSame: bool)

  /**
    The form after a reverse-geocoded state name is applied: the province
    becomes `GeocodedProvince`; when that changes it while the flag is
    down, the province effect also moves the map to the new province's
    centre at zoom 14. Nothing else changes.
   */
  function AfterGeocoding(s: FormState, state: Option<string>): (t: FormState)
    requires s.province in PROVINCE_COORDINATES
    ensures t.province == GeocodedProvince(s.province, state) && t.province in PROVINCE_COORDINATES
    ensures t.(location := s.location, mapZoom := s.mapZoom, province := s.province) == s
  {
    var p := GeocodedProvince(s.province, state);
    if p != s.province && !s.isGeolocating
    then s.(province := p, location := Some(PROVINCE_COORDINATES[p]), mapZoom := PROVINCE_ZOOM)
    else s.(province := p)
  }

  /**
    What the geolocation flag is for: while it is up, applying a geocoded
    state name never moves the map, so an accepted position stays on the
    map at zoom 18 whatever province the state name selects.
   */
  lemma FlagKeepsPosition(s: FormState, pos: LatLng, state: Option<string>)
    requires s.province in PROVINCE_COORDINATES && s.isGeolocating
    ensures var t := AfterGeocoding(s.(location := Some(pos), mapZoom := POSITION_ZOOM), state);
      t.location == Some(pos) && t.mapZoom == POSITION_ZOOM
  {
  }

  class RentForm {
    var step: int
    var location: Option<LatLng>
    var mapZoom: int
    var isGeolocating: bool
    var isLoading: bool
    var province: string
    var contactPhone: string
    var contactWhatsapp: string
    var isWhatsappSame: bool

    function State(): FormState
      reads this
    {
      FormState(step, location, mapZoom, isGeolocating, isLoading, province,
                contactPhone, contactWhatsapp, isWhatsappSame)
    }

    /**
      The step stays in range, the province is always one the map knows,
      the zoom is one of the two the form sets, and a WhatsApp number
      marked "same as phone" equals the phone.
     */
    ghost predicate Valid()
      reads this
    {
      && CATEGORY <= step <= DESCRIPTION_PRICE
      && province in PROVINCE_COORDINATES
      && (mapZoom == PROVINCE_ZOOM || mapZoom == POSITION_ZOOM)
      && (isWhatsappSame ==> contactWhatsapp == contactPhone)
    }

    /**
      Mounting with the default values; the province effect then runs
      once and centres the map on the default province.
     */
    constructor ()
      ensures Valid()
      ensures State() == FormState(CATEGORY, Some(PROVINCE_COORDINATES[DEFAULT_PROVINCE]), PROVINCE_ZOOM,
                                   false, false, DEFAULT_PROVINCE, "", "", false)
    {
      step := CATEGORY;
      location := None;
      mapZoom := PROVINCE_ZOOM;
      isGeolocating := false;
      isLoading := false;
      province := DEFAULT_PROVINCE;
      contactPhone := "";
      contactWhatsapp := "";
      isWhatsappSame := false;
      new;
      ProvinceEffect();
    }

    /**
      The province effect: unless geolocation is running, centre the map
      on the selected province at zoom 14.
     */
    method ProvinceEffect()
      modifies this
      ensures isGeolocating ==> State() == old(State())
      ensures !isGeolocating && old(province) in PROVINCE_COORDINATES ==>
        State() == old(State()).(location := Some(PROVINCE_COORDINATES[old(province)]), mapZoom := PROVINCE_ZOOM)
      ensures old(province) !in PROVINCE_COORDINATES ==> State() == old(State())
    {
      if isGeolocating {
        return;
      }
      if province in PROVINCE_COORDINATES {
        location := Some(PROVINCE_COORDINATES[province]);
        mapZoom := PROVINCE_ZOOM;
      }
    }

    /**
      Writing the `province` field; the province effect runs when the
      value actually changes.
     */
    method SetProvince(p: string)
      requires Valid() && p in PROVINCE_COORDINATES
      modifies this
      ensures Valid()
      ensures p == old(province) || old(isGeolocating) ==> State() == old(State()).(province := p)
      ensures p != old(province) && !old(isGeolocating) ==>
        State() == old(State()).(province := p, location := Some(PROVINCE_COORDINATES[p]), mapZoom := PROVINCE_ZOOM)
    {
      var changed := p != province;
      province := p;
      if changed {
        ProvinceEffect();
      }
    }

    /** The province `<select>`, whose options are exactly the province keys. */
    method SelectProvince(p: string)
      requires Valid() && p in PROVINCE_COORDINATES
      modifies this
      ensures Valid() && province == p
      ensures p == old(province) || old(isGeolocating) ==> State() == old(State()).(province := p)
      ensures p != old(province) && !old(isGeolocating) ==>
        State() == old(State()).(province := p, location := Some(PROVINCE_COORDINATES[p]), mapZoom := PROVINCE_ZOOM)
    {
      SetProvince(p);
    }

    /** Dragging the marker: the location becomes the marker's position. */
    method MoveMarker(newLocation: LatLng)
      requires Valid()
      modifies this
      ensures Valid() && State() == old(State()).(location := Some(newLocation))
    {
      location := Some(newLocation);
    }

    /**
      "Usar mi ubicación actual": without browser support nothing changes;
      otherwise loading starts and the geolocation flag is raised.
     */
    method StartGeolocation(supported: bool)
      requires Valid()
      modifies this
      ensures Valid()
      ensures !supported ==> State() == old(State())
      ensures supported ==> State() == old(State()).(isLoading := true, isGeolocating := true)
    {
      if !supported {
        return;
      }
      isLoading := true;
      isGeolocating := true;
    }

    /**
      The position callback. A position outside the bounding box is
      rejected: location, zoom and province stay, loading stops and the
      flag is lowered. An accepted one moves the map there at zoom 18 and,
      when reverse geocoding yields a known state name, selects that
      province. While the flag is up (as it is after `StartGeolocation`)
      the map is not moved back; a callback arriving after the flag went
      down lets the province effect move the map to a newly selected
      province.
     */
    method PositionReceived(lat: real, lng: real, state: Option<string>) returns (accepted: bool)
      requires Valid()
      modifies this
      ensures Valid()
      ensures accepted <==> InCostaRica(lat, lng)
      ensures !accepted ==> State() == old(State()).(isLoading := false, isGeolocating := false)
      ensures accepted ==>
        State() == AfterGeocoding(old(State()).(location := Some(LatLng(lat, lng)), mapZoom := POSITION_ZOOM), state)
                     .(isLoading := false)
    {
      accepted := InCostaRica(lat, lng);
      if !accepted {
        isLoading := false;
        isGeolocating := false;
        return;
      }
      AcceptPosition(LatLng(lat, lng), state);
    }

    /**
      The accepted branch of the position callback: the map moves to the
      position at zoom 18, the reverse-geocoded state name may select a
      province, and loading stops.
     */
    method AcceptPosition(pos: LatLng, state: Option<string>)
      requires Valid()
      modifies this
      ensures Valid()
      ensures State() == AfterGeocoding(old(State()).(location := Some(pos), mapZoom := POSITION_ZOOM), state).(isLoading := false)
    {
      location := Some(pos);
      mapZoom := POSITION_ZOOM;
      ghost var moved := State();
      assert moved == old(State()).(location := Some(pos), mapZoom := POSITION_ZOOM);
      ApplyGeocodedState(state);
      ghost var geocoded := State();
      isLoading := false;
      assert State() == geocoded.(isLoading := false);
    }

    /**
      The reverse-geocoding step: a state name that normalises to a
      province key selects that province through `SetProvince`: the
      province effect then runs; it changes nothing while the flag is up,
      and moves the map to a newly selected province when it is down.
     */
    method ApplyGeocodedState(state: Option<string>)
      requires Valid()
      modifies this
      ensures Valid() && State() == AfterGeocoding(old(State()), state)
    {
      if state.Some? {
        var provinceKey := GetProvinceKey(state.value);
        if provinceKey.Some? {
          SetProvince(provinceKey.value);
        }
      }
    }

    /** The error callback: loading stops and the flag is lowered. */
    method PositionFailed()
      requires Valid()
      modifies this
      ensures Valid() && State() == old(State()).(isLoading := false, isGeolocating := false)
    {
      isLoading := false;
      isGeolocating := false;
    }

    /** The delayed lowering of the flag after a successful position. */
    method GeolocationSettled()
      requires Valid()
      modifies this
      ensures Valid() && State() == old(State()).(isGeolocating := false)
    {
      isGeolocating := false;
    }

    /** The WhatsApp effect: while "same number" is ticked, copy the phone. */
    method WhatsappEffect()
      modifies this
      ensures isWhatsappSame ==> State() == old(State()).(contactWhatsapp := contactPhone)
      ensures !isWhatsappSame ==> State() == old(State())
    {
      if isWhatsappSame {
        contactWhatsapp := contactPhone;
      }
    }

    /** Typing the phone number; the WhatsApp effect follows. */
    method SetContactPhone(phone: string)
      requires Valid()
      modifies this
      ensures Valid()
      ensures State() == old(State()).(contactPhone := phone,
                                       contactWhatsapp := if isWhatsappSame then phone else old(contactWhatsapp))
    {
      contactPhone := phone;
      WhatsappEffect();
    }

    /** Ticking or clearing "same number"; the WhatsApp effect follows. */
    method SetWhatsappSame(same: bool)
      requires Valid()
      modifies this
      ensures Valid()
      ensures State() == old(State()).(isWhatsappSame := same,
                                       contactWhatsapp := if same then contactPhone else old(contactWhatsapp))
    {
      isWhatsappSame := same;
      WhatsappEffect();
    }

    /** Typing a WhatsApp number: that field is only shown while "same number" is clear. */
    method SetContactWhatsapp(whatsapp: string)
      requires Valid() && !isWhatsappSame
      modifies this
      ensures Valid() && State() == old(State()).(contactWhatsapp := whatsapp)
    {
      contactWhatsapp := whatsapp;
    }

    /**
      `reset()`: the form values return to their defaults; when that
      changes the province, the province effect follows.
     */
    method ResetForm()
      requires Valid()
      modifies this
      ensures Valid()
      ensures var cleared := old(State()).(location := None, province := DEFAULT_PROVINCE,
                                           contactPhone := "", contactWhatsapp := "", isWhatsappSame := false);
        if old(province) != DEFAULT_PROVINCE && !old(isGeolocating)
        then State() == cleared.(location := Some(PROVINCE_COORDINATES[DEFAULT_PROVINCE]), mapZoom := PROVINCE_ZOOM)
        else State() == cleared
    {
      var before := province;
      location := None;
      province := DEFAULT_PROVINCE;
      contactPhone := "";
      contactWhatsapp := "";
      isWhatsappSame := false;
      if province != before {
        ProvinceEffect();
      }
    }

    /**
      The secondary button, offered exactly when it has a label (every step
      but the first): one step back.
     */
    method Back()
      requires Valid() && SecondaryActionLabel(step).Some?
      modifies this
      ensures Valid() && State() == old(State()).(step := old(step) - 1)
    {
      step := step - 1;
    }

    /**
      The primary button. Before the last step it only advances and posts
      nothing. On the last step it posts the listing (whose success is an
      input here); a successful post resets the form to its defaults and
      returns to the first step, and either way loading ends.
     */
    method Submit(postSucceeds: bool) returns (posted: bool)
      requires Valid()
      modifies this
      ensures Valid()
      ensures posted <==> ActionLabel(old(step)) == "Crear"
      ensures !posted ==> State() == old(State()).(step := old(step) + 1)
      ensures posted && !postSucceeds ==> State() == old(State()).(isLoading := false)
      ensures posted && postSucceeds ==>
        && step == CATEGORY && province == DEFAULT_PROVINCE && !isLoading
        && contactPhone == "" && contactWhatsapp == "" && !isWhatsappSame
        && isGeolocating == old(isGeolocating)
        && mapZoom == (if old(province) != DEFAULT_PROVINCE && !old(isGeolocating) then PROVINCE_ZOOM else old(mapZoom))
        && (old(province) == DEFAULT_PROVINCE || old(isGeolocating) ==> location.None?)
        && (old(province) != DEFAULT_PROVINCE && !old(isGeolocating) ==>
              location == Some(PROVINCE_COORDINATES[DEFAULT_PROVINCE]))
    {
      if step != DESCRIPTION_PRICE {
        step := step + 1;
        return false;
      }
      posted := true;
      isLoading := true;
      if postSucceeds {
        ResetForm();
        step := CATEGORY;
      }
      isLoading := false;
    }
  }
}

=== FILE: seqs.dfy ===
/**
  The array operations the hooks rely on: `Array.prototype.filter`
  (order-preserving selection), `Array.prototype.find`/`findIndex` (first
  element satisfying a test) and the subsequence relation that describes
  what a filter keeps.
 */
module Seqs {
  import opened Common

  /** `s.filter(p)`: the elements of `s` satisfying `p`, in their order. */
  function Filter<T>(s: seq<T>, p: T -> bool): (r: seq<T>)
    ensures |r| <= |s|
  {
    if s == [] then []
    else Filter(s[..|s| - 1], p) + (if p(s[|s| - 1]) then [s[|s| - 1]] else [])
  }

  /** `s.findIndex(p)`, with `-1` as `None`. */
  function FirstIndex<T>(s: seq<T>, p: T -> bool): (r: Option<nat>)
    ensures r.Some? ==> r.value < |s| && p(s[r.value])
    ensures r.Some? ==> forall j :: 0 <= j < r.value ==> !p(s[j])
    ensures r.None? ==> forall j :: 0 <= j < |s| ==> !p(s[j])
  {
    if s == [] then None
    else if p(s[0]) then Some(0)
    else match FirstIndex(s[1..], p)
      case None => None
      case Some(i) => Some(i + 1)
  }

  /** `a` is obtained from `b` by deleting elements; order is kept. */
  predicate IsSubseq<T(==)>(a: seq<T>, b: seq<T>)
  {
    if a == [] then true
    else if b == [] then false
    else
      || (a[|a| - 1] == b[|b| - 1] && IsSubseq(a[..|a| - 1], b[..|b| - 1]))
      || IsSubseq(a, b[..|b| - 1])
  }

  /** An element is kept by the filter exactly when it is in `s` and passes `p`. */
  lemma {:induction false} FilterMembers<T>(s: seq<T>, p: T -> bool, x: T)
    ensures x in Filter(s, p) <==> x in s && p(x)
  {
    if s != [] {
      var init, last := s[..|s| - 1], s[|s| - 1];
      assert s == init + [last];
      FilterMembers(init, p, x);
    }
  }

  /** `FilterMembers` for every element at once. */
  lemma FilterMembersAll<T>(s: seq<T>, p: T -> bool)
    ensures forall x :: x in Filter(s, p) <==> x in s && p(x)
  {
    forall x ensures x in Filter(s, p) <==> x in s && p(x) {
      FilterMembers(s, p, x);
    }
  }

  /** Every occurrence passing `p` is kept, every other one is dropped. */
  lemma {:induction false} FilterMultiset<T>(s: seq<T>, p: T -> bool, x: T)
    ensures multiset(Filter(s, p))[x] == if p(x) then multiset(s)[x] else 0
  {
    if s != [] {
      var init, last := s[..|s| - 1], s[|s| - 1];
      assert s == init + [last];
      FilterMultiset(init, p, x);
    }
  }

  /** `FilterMultiset` for every element at once. */
  lemma FilterMultisetAll<T>(s: seq<T>, p: T -> bool)
    ensures forall x :: multiset(Filter(s, p))[x] == if p(x) then multiset(s)[x] else 0
  {
    forall x ensures multiset(Filter(s, p))[x] == if p(x) then multiset(s)[x] else 0 {
      FilterMultiset(s, p, x);
    }
  }

  /** The filter keeps the original relative order. */
  lemma {:induction false} FilterIsSubseq<T>(s: seq<T>, p: T -> bool)
    ensures IsSubseq(Filter(s, p), s)
  {
    if s != [] {
      var init, last := s[..|s| - 1], s[|s| - 1];
      FilterIsSubseq(init, p);
      if p(last) {
        var f := Filter(init, p) + [last];
        assert f[..|f| - 1] == Filter(init, p);
      } else {
        assert Filter(s, p) == Filter(init, p);
      }
    }
  }
}

=== FILE: sorting.dfy ===
/**
  `[...items].sort((a, b) => name(a).localeCompare(name(b)))`: a copy of
  the list sorted by a name. JavaScript's sort is stable, so this is an
  insertion sort that places each element after the equal ones before it.
 */
module Sorting {
  import opened Strings

  /** Each element's name is at most the next element's name. */
  predicate SortedBy<T>(s: seq<T>, name: T -> string)
  {
    forall i :: 0 < i < |s| ==> StrLeq(name(s[i - 1]), name(s[i]))
  }

  /** A sorted list stays sorted under a head no greater than its first element. */
  lemma SortedCons<T>(h: T, t: seq<T>, name: T -> string)
    requires SortedBy(t, name)
    requires t != [] ==> StrLeq(name(h), name(t[0]))
    ensures SortedBy([h] + t, name)
  {
    var r := [h] + t;
    forall i | 0 < i < |r| ensures StrLeq(name(r[i - 1]), name(r[i])) {
      if i > 1 {
        assert r[i - 1] == t[i - 2] && r[i] == t[i - 1];
      }
    }
  }

  /** Insert `x` into sorted `s` after every element whose name is at most `x`'s. */
  function Insert<T>(x: T, s: seq<T>, name: T -> string): (r: seq<T>)
    requires SortedBy(s, name)
    ensures SortedBy(r, name)
    ensures multiset(r) == multiset(s) + multiset{x}
    ensures |r| == |s| + 1 && (r[0] == x || (s != [] && r[0] == s[0]))
  {
    if s == [] then [x]
    else if StrLeq(name(s[0]), name(x)) then
      var tail := Insert(x, s[1..], name);
      SortedCons(s[0], tail, name);
      assert s == [s[0]] + s[1..];
      [s[0]] + tail
    else
      StrLeqTotal(name(s[0]), name(x));
      SortedCons(x, s, name);
      [x] + s
  }

  /** The sorted copy: same elements, same multiplicities, ordered by name. */
  function SortBy<T>(s: seq<T>, name: T -> string): (r: seq<T>)
    ensures SortedBy(r, name)
    ensures multiset(r) == multiset(s)
    ensures |r| == |s|
  {
    if s == [] then []
    else
      var init := s[..|s| - 1];
      assert s == init + [s[|s| - 1]];
      Insert(s[|s| - 1], SortBy(init, name), name)
  }

  /** In the sorted copy, an earlier element's name never comes after a later one's. */
  lemma SortByOrdered<T>(s: seq<T>, name: T -> string)
    ensures forall i, j :: 0 <= i <= j < |SortBy(s, name)| ==> StrLeq(name(SortBy(s, name)[i]), name(SortBy(s, name)[j]))
  {
    var r := SortBy(s, name);
    forall i, j | 0 <= i <= j < |r| ensures StrLeq(name(r[i]), name(r[j])) {
      SortedPairwise(r, name, i, j);
    }
  }

  /** Sorted by adjacent pairs means sorted between any two positions. */
  lemma {:induction false} SortedPairwise<T>(s: seq<T>, name: T -> string, i: nat, j: nat)
    requires SortedBy(s, name) && i <= j < |s|
    ensures StrLeq(name(s[i]), name(s[j]))
    decreases j - i
  {
    if i == j {
      StrLeqRefl(name(s[i]));
    } else {
      SortedPairwise(s, name, i, j - 1);
      StrLeqTrans(name(s[i]), name(s[j - 1]), name(s[j]));
    }
  }

  lemma {:induction false} StrLeqRefl(a: string)
    ensures StrLeq(a, a)
  {
    StrLeqTotal(a, a);
  }
}

=== FILE: strings.dfy ===
/**
  The JavaScript string operations the location code uses, on strings as
  sequences of characters: `indexOf`/`includes`, `replace` with a string
  pattern (first occurrence only), `trim`, and the ordering used to sort
  option lists.
 */
module Strings {
  import opened Common

  /** `pat` occurs in `s` starting at index `i`. */
  predicate OccursAt(s: string, pat: string, i: nat)
  {
    i + |pat| <= |s| && s[i..i + |pat|] == pat
  }

  /** `s.indexOf(pat, from)`, with `-1` as `None`. */
  function IndexOfFrom(s: string, pat: string, from: nat): (r: Option<nat>)
    requires from <= |s|
    ensures r.Some? ==> from <= r.value && OccursAt(s, pat, r.value)
    ensures r.Some? ==> forall j :: from <= j < r.value ==> !OccursAt(s, pat, j)
    ensures r.None? ==> forall j :: from <= j <= |s| ==> !OccursAt(s, pat, j)
    decreases |s| - from
  {
    if OccursAt(s, pat, from) then Some(from)
    else if from == |s| then None
    else IndexOfFrom(s, pat, from + 1)
  }

  /** `s.indexOf(pat)`: the first occurrence of `pat` in `s`. */
  function IndexOf(s: string, pat: string): (r: Option<nat>)
    ensures r.Some? ==> OccursAt(s, pat, r.value)
    ensures r.Some? ==> forall j :: 0 <= j < r.value ==> !OccursAt(s, pat, j)
    ensures r.None? ==> forall j :: 0 <= j <= |s| ==> !OccursAt(s, pat, j)
  {
    IndexOfFrom(s, pat, 0)
  }

  /** `s.includes(pat)`. */
  predicate Includes(s: string, pat: string)
  {
    IndexOf(s, pat).Some?
  }

  /** The empty string is included in every string, as in JavaScript. */
  lemma IncludesEmpty(s: string)
    ensures Includes(s, "")
  {
    assert OccursAt(s, "", 0);
  }

  /**
    `s.replace(pat, '')` with a string pattern: only the FIRST occurrence
    of `pat` is removed; without an occurrence `s` is returned unchanged.
   */
  function RemoveFirst(s: string, pat: string): (r: string)
    ensures IndexOf(s, pat).None? ==> r == s
    ensures IndexOf(s, pat).Some? ==>
      var i := IndexOf(s, pat).value; |r| == |s| - |pat| && r == s[..i] + s[i + |pat|..]
  {
    match IndexOf(s, pat)
    case None => s
    case Some(i) => s[..i] + s[i + |pat|..]
  }

  /** A string starting with `pat` loses exactly that prefix. */
  lemma RemoveFirstPrefix(pat: string, rest: string)
    ensures RemoveFirst(pat + rest, pat) == rest
  {
    var s := pat + rest;
    assert OccursAt(s, pat, 0);
    assert IndexOf(s, pat) == Some(0);
  }

  /** A string shorter than the pattern cannot contain it. */
  lemma RemoveFirstShort(s: string, pat: string)
    requires |s| < |pat|
    ensures RemoveFirst(s, pat) == s
  {
  }

  /**
    The characters `String.prototype.trim` removes: the ECMAScript
    WhiteSpace and LineTerminator code points.
   */
  predicate IsWhitespace(c: char)
  {
    || c == '\t' || c == '\n' || c == '\U{000B}' || c == '\U{000C}' || c == '\r'
    || c == ' ' || c == '\U{00A0}' || c == '\U{1680}'
    || ('\U{2000}' <= c <= '\U{200A}')
    || c == '\U{2028}' || c == '\U{2029}' || c == '\U{202F}' || c == '\U{205F}'
    || c == '\U{3000}' || c == '\U{FEFF}'
  }

  /** `s.trimStart()`: the suffix of `s` after its leading whitespace. */
  function TrimStart(s: string): (r: string)
    ensures |r| <= |s| && r == s[|s| - |r|..]
    ensures forall k :: 0 <= k < |s| - |r| ==> IsWhitespace(s[k])
    ensures r == [] || !IsWhitespace(r[0])
  {
    if s != [] && IsWhitespace(s[0]) then TrimStart(s[1..]) else s
  }

  /** `s.trimEnd()`: the prefix of `s` before its trailing whitespace. */
  function TrimEnd(s: string): (r: string)
    ensures |r| <= |s| && r == s[..|r|]
    ensures forall k :: |r| <= k < |s| ==> IsWhitespace(s[k])
    ensures r == [] || !IsWhitespace(r[|r| - 1])
  {
    if s != [] && IsWhitespace(s[|s| - 1]) then TrimEnd(s[..|s| - 1]) else s
  }

  /**
    `r` sits in `s` at index `i`, and every character of `s` outside that
    slice is whitespace.
   */
  predicate PaddedAt(s: string, r: string, i: nat)
  {
    && i + |r| <= |s| && r == s[i..i + |r|]
    && (forall k :: 0 <= k < i ==> IsWhitespace(s[k]))
    && (forall k :: i + |r| <= k < |s| ==> IsWhitespace(s[k]))
  }

  /**
    `s.trim()`: a slice of `s` with only whitespace around it, which itself
    neither starts nor ends with whitespace.
   */
  function Trim(s: string): (r: string)
    ensures r == [] || (!IsWhitespace(r[0]) && !IsWhitespace(r[|r| - 1]))
    ensures exists i :: PaddedAt(s, r, i)
  {
    var t := TrimStart(s);
    var r := TrimEnd(t);
    assert PaddedAt(s, r, |s| - |t|);
    r
  }

  /** Trimming a string without surrounding whitespace changes nothing. */
  lemma TrimKeeps(s: string)
    requires s == [] || (!IsWhitespace(s[0]) && !IsWhitespace(s[|s| - 1]))
    ensures Trim(s) == s
  {
  }

  /**
    The order used to sort option lists: lexicographic by code point. It
    stands for `String.prototype.localeCompare`, whose collation rules are
    not modelled; what the sorts need of it is that it is total and
    transitive (lemmas below).
   */
  predicate StrLeq(a: string, b: string)
  {
    if a == [] then true
    else if b == [] then false
    else if a[0] != b[0] then a[0] < b[0]
    else StrLeq(a[1..], b[1..])
  }

  lemma {:induction false} StrLeqTotal(a: string, b: string)
    ensures StrLeq(a, b) || StrLeq(b, a)
  {
    if a != [] && b != [] && a[0] == b[0] {
      StrLeqTotal(a[1..], b[1..]);
    }
  }

  lemma {:induction false} StrLeqTrans(a: string, b: string, c: string)
    requires StrLeq(a, b) && StrLeq(b, c)
    ensures StrLeq(a, c)
  {
    if a != [] && b != [] && c != [] && a[0] == b[0] && b[0] == c[0] {
      StrLeqTrans(a[1..], b[1..], c[1..]);
    }
  }
}
